=== FILE: README.md ===
# github-importer: batch issue import and hotspot log, in Dafny

The github-importer walks the paginated issue listing of one GitHub
repository and hands every issue to a pluggable processor. The processor gets
three calls: `will_process` once, `process_issue` once per issue, and
`did_process` once at the end. The default processor, the hotspot processor,
keeps an issue log. The log maps each issue number to its comment count and
its participant count.

This project models two pieces:

- `RepoLiveBatchImporter#run`: the page-walking dispatch loop.
- `RepoToHotspotProcessor`: the processor that loop feeds by default.

Modules:

- `Issues` (`issues.dfy`): the issue record, and the processor calls as an
  `Event` datatype (`WillProcessCall`, `ProcessIssueCall`, `DidProcessCall`).
  It also defines the reference notions the other modules are proved
  against:
  - `Lifecycle`: the processor call order.
  - `Processed`: the issues a call trace hands to `process_issue`.
  - `Concat`: the issues of a run of pages, in order.
- `LiveBatchImporter` (`importer.dfy`): the remote listing is a non-empty
  sequence of pages. Page `k` has a "next" link, to page `k + 1`, exactly
  when page `k + 1` exists. `Fetch(src, k)` is the response for page `k`:
  its issues, plus a next link exactly when page `k + 1` exists
  (github_importer_batch.rb:35-36, 49-51). `Run` is the loop of `run`. It
  returns the calls it made on the processor, in order, and the number of
  pages it fetched.
- `HotspotProcessor` (`hotspot.dfy`): the processor as an immutable value
  holding the issue log.
  - `New` is `initialize`: an empty log (github_importer_batch.rb:65-67).
  - `Processor.WillProcess` and `Processor.ProcessIssue` are the two hooks
    of the same names.
  - `Processor.DidProcess` is `did_process`: it returns the whole log
    instead of printing it (github_importer_batch.rb:98-100).
  - `Step` routes each recorded call to its hook, and `Replay` feeds a whole
    call trace through `Step`, in order.
- `LiveBatch` (`batch.dfy`): the default pairing of the two, plus the
  two-page example scenario.

The processor's state depends only on the calls it receives. So replaying the
importer's call trace into the processor after the run gives the same log as
the interleaved calls `run` makes on its processor.

`will_process` takes only the page budget, not the repository
(github_importer_batch.rb:69).

One behaviour is kept exactly as written. With a budget of `B` and `P`
pages, where 1 <= B < P, the loop follows B "next" links and never processes
the page the last one leads to: it fetches `B + 1` pages and processes the
first `B`. The loop fetches that page before it decrements the budget to zero
(github_importer_batch.rb:47-52). With B = 0, the only page fetched is the
first one (github_importer_batch.rb:35), and it is not processed.

The budget is an unbounded integer. A budget of zero or less still fetches
the first page. It then calls `will_process` and `did_process` with no
`process_issue` in between.

## Model

| member | source | states |
|---|---|---|
| Issues.IssueCalls | github_importer_batch.rb:42-44 | a page's issues produce one `process_issue` call each, with the repository, in page order |
| Issues.DispatchTraceLifecycle | github_importer_batch.rb:40-57 | a dispatch trace calls `will_process` exactly once, first, with the budget; calls `did_process` exactly once, last; and hands `process_issue` exactly the given issues in order |
| LiveBatchImporter.DispatchPage | github_importer_batch.rb:42-44 | the inner loop appends one `process_issue` call per issue of the current page, in order, after the calls already made |
| LiveBatchImporter.Run | github_importer_batch.rb:30-58 | the loop terminates; its calls keep the lifecycle order; `process_issue` receives the concatenation of the first min(P, max(budget, 0)) pages, nothing skipped or reordered; it fetches 1 + min(P - 1, max(budget, 0)) pages |
| LiveBatchImporter.RunStopsAtLastPage | github_importer_batch.rb:47-55 | with a budget of at least P pages, the calls are exactly those for dispatching every issue of the listing, and exactly P pages are fetched: the missing next link stops the loop whatever budget remains |
| LiveBatchImporter.RunFetchesUnprocessedPage | github_importer_batch.rb:41-52 | with 0 <= budget < P, only the first `budget` pages are processed but `budget + 1` pages are fetched, so the page fetched last never reaches the processor |
| LiveBatchImporter.RunWithoutIssues | github_importer_batch.rb:35-57 | with a budget of zero or less, or a listing that is one empty page, the first page is still fetched and the processor gets only `will_process` then `did_process` |
| HotspotProcessor.Processor.WillProcess | github_importer_batch.rb:69-70 | `will_process` leaves the issue log unchanged |
| HotspotProcessor.Processor.ProcessIssue | github_importer_batch.rb:73-96 | `process_issue` adds the issue's number to the log's keys, stores its comment count with zero participants there (overwriting an earlier entry), and leaves every other entry unchanged |
| HotspotProcessor.LastWithNumberExists | github_importer_batch.rb:92-95 | every issue number that was processed has a last processed issue carrying it, so the last-write-wins description covers every key |
| HotspotProcessor.ReplayIssueCalls | github_importer_batch.rb:92-95 | a run of `process_issue` calls adds exactly the processed numbers as keys; each number holds the comment count of the last issue with that number and zero participants; other entries are unchanged |
| HotspotProcessor.DispatchedLog | github_importer_batch.rb:64-100 | the log a fresh processor publishes after a full dispatch has as keys exactly the distinct numbers processed; each entry is the last such issue's comment count; every participant count is 0 |
| LiveBatch.RunWithHotspot | github_importer_batch.rb:20-58 | the default importer-plus-hotspot run publishes a log keyed by the distinct numbers of the first min(P, max(budget, 0)) pages, with last-write-wins comment counts and zero participants, after 1 + min(P - 1, max(budget, 0)) fetches |
| LiveBatch.TwoPageScenario | github_importer_batch.rb:20-100 | running the default importer on issues #1 (3 comments) and #2 (0) on page one and #3 (7) on page two, with budget 3, fetches two pages and publishes the log {1: (3, 0), 2: (0, 0), 3: (7, 0)} |
| LiveBatch.DuplicateNumberScenario | github_importer_batch.rb:92-95 | running the default importer on a listing where issue #1 appears on both pages (3 comments, then 5) publishes the later entry {1: (5, 0)} after two fetches |

## Left out

- Octokit client, `.netrc` authentication and HTTP responses (github_importer_batch.rb:26, 35-36, 49-51): network I/O. The model replaces them with the abstract page sequence. A fetch failure, which aborts the run without `did_process`, is not modelled.
- Console output (`puts` at github_importer_batch.rb:48 and 77) and the JSON serialisation in `did_process` (github_importer_batch.rb:99): output only. `DidProcess` returns the log instead. A Ruby Hash keeps first-insertion order, so in the printed JSON a re-processed issue number keeps its first position. `IssueLog` is an unordered map and does not record that order.
- The commented-out per-comment participant enumeration (github_importer_batch.rb:86-88): it never runs, so the participant set is always empty.
- `RepoToFileProcessor` (github_importer_batch.rb:104-118): every method body is empty, so it has no behaviour to model.
- `RepoFileBatchImporter` (github_importer_batch.rb:124-160): its `initialize` sets only `@processor` (github_importer_batch.rb:125-129), so `@client` is nil and `@client.issues(repo)` at github_importer_batch.rb:136 raises before `will_process` runs; as written, this importer never calls its processor. Its loop text (github_importer_batch.rb:141-158) is a copy of the live loop, and `LiveBatchImporter.Run` models only that copied loop text, not this importer's failing run. It has no file reading or cache check.
- Hard-coded repository and budget (github_importer_batch.rb:23-24): they are parameters of `Run`. The top-level invocation (github_importer_batch.rb:162) is left out.
- Unused requires for webhook signatures, JWT, time and logging (github_importer_batch.rb:5-8): no code uses them.
- Issue fields other than number, title and comment count: the hotspot processor reads no others.

=== FILE: batch.dfy ===
/** The importer as it runs by default: the live batch importer feeding the
    hotspot processor. */
module LiveBatch {
  import opened Issues
  import opened LiveBatchImporter
  import opened HotspotProcessor

  /** A run of the live importer with a fresh hotspot processor; returns the
      log `did_process` publishes and the number of pages fetched. */
  method RunWithHotspot(src: Listing, repo: string, maxPages: int) returns (log: IssueLog, fetches: nat)
    ensures log.Keys == Numbers(Concat(src[..PagesProcessed(|src|, maxPages)]))
    ensures forall i :: LastWithNumber(Concat(src[..PagesProcessed(|src|, maxPages)]), i) ==>
      log[Concat(src[..PagesProcessed(|src|, maxPages)])[i].number]
        == Entry(Concat(src[..PagesProcessed(|src|, maxPages)])[i].comments, 0)
    ensures forall n :: n in log ==> log[n].numParticipants == 0
    ensures fetches == 1 + NextFetches(|src|, maxPages)
  {
    var trace;
    trace, fetches := Run(src, repo, maxPages);
    log := Replay(New(), trace).DidProcess();
    DispatchedLog(repo, maxPages, Concat(src[..PagesProcessed(|src|, maxPages)]));
  }

  /** A listing of two pages, both processed under a budget of 3. */
  lemma TwoPagesProcessed(a: seq<Issue>, b: seq<Issue>)
    ensures PagesProcessed(2, 3) == 2 && NextFetches(2, 3) == 1
    ensures Concat([a, b][..2]) == a + b
  {
    var src := [a, b];
    assert src[..2] == src;
    assert Concat(src[..1]) == a by {
      assert src[..1][..0] == [];
    }
    ConcatSnoc(src, 1);
  }

  /** Two pages, #1 (3 comments) and #2 (0 comments) then #3 (7 comments),
      under a budget of 3: both pages are processed, one "next" link is
      followed, and the log holds all three issues. */
  method TwoPageScenario() returns (log: IssueLog, fetches: nat)
    ensures log == map[1 := Entry(3, 0), 2 := Entry(0, 0), 3 := Entry(7, 0)]
    ensures fetches == 2
  {
    var page1 := [Issue(1, "one", 3), Issue(2, "two", 0)];
    var page2 := [Issue(3, "three", 7)];
    TwoPagesProcessed(page1, page2);
    log, fetches := RunWithHotspot([page1, page2], "acme/widgets", 3);
    var issues := page1 + page2;
    assert LastWithNumber(issues, 0) && LastWithNumber(issues, 1) && LastWithNumber(issues, 2);
    assert Numbers(issues) == {1, 2, 3} by {
      assert issues[0].number == 1 && issues[1].number == 2 && issues[2].number == 3;
    }
    assert log[1] == Entry(3, 0) && log[2] == Entry(0, 0) && log[3] == Entry(7, 0);
  }

  /** Issue #1 listed on both pages, first with 3 comments and then with 5:
      the later `process_issue` call overwrites the earlier entry. */
  method DuplicateNumberScenario() returns (log: IssueLog, fetches: nat)
    ensures log == map[1 := Entry(5, 0)]
    ensures fetches == 2
  {
    var page1 := [Issue(1, "first", 3)];
    var page2 := [Issue(1, "again", 5)];
    TwoPagesProcessed(page1, page2);
    log, fetches := RunWithHotspot([page1, page2], "acme/widgets", 3);
    var issues := page1 + page2;
    assert LastWithNumber(issues, 1);
    assert Numbers(issues) == {1} by {
      assert issues[0].number == 1 && issues[1].number == 1;
    }
    assert log[1] == Entry(5, 0);
  }
}

=== FILE: hotspot.dfy ===
/** The hotspot processor: records, per issue number, how many comments the
    issue has and how many people took part in it. Participants are never
    enumerated, so that count is always zero. */
module HotspotProcessor {
  import opened Issues

  /** One issue-log entry. */
  datatype Entry = Entry(numComments: nat, numParticipants: nat)

  /** The issue log: issue number to entry, one entry per number. */
  type IssueLog = map<int, Entry>

  /** A hotspot processor and the issue log it owns. */
  datatype Processor = Processor(issueLog: IssueLog) {

    /** `will_process`: the hook is empty. */
    function WillProcess(maxNumberOfPages: int): (p: Processor)
      ensures p.issueLog == issueLog
    {
      this
    }

    /** `process_issue`: writes the entry of this issue's number, replacing any
        earlier entry with that number, and leaves every other entry alone. */
    function ProcessIssue(repo: string, issue: Issue): (p: Processor)
      ensures p.issueLog.Keys == issueLog.Keys + {issue.number}
      ensures p.issueLog[issue.number] == Entry(issue.comments, 0)
      ensures forall n :: n in issueLog && n != issue.number ==> p.issueLog[n] == issueLog[n]
    {
      var participants: set<int> := {};
      Processor(issueLog[issue.number := Entry(issue.comments, |participants|)])
    }

    /** `did_process`: publishes the whole log. */
    function DidProcess(): IssueLog
    {
      issueLog
    }
  }

  /** A processor as constructed: an empty log. */
  function New(): Processor
  {
    Processor(map[])
  }

  /** The processor's reaction to one call. */
  function Step(p: Processor, e: Event): Processor
  {
    match e
    case WillProcessCall(n) => p.WillProcess(n)
    case ProcessIssueCall(repo, issue) => p.ProcessIssue(repo, issue)
    case DidProcessCall => p
  }

  /** The processor after receiving the calls of `trace`, in order. */
  function Replay(p: Processor, trace: seq<Event>): Processor
  {
    if |trace| == 0 then p else Step(Replay(p, trace[..|trace| - 1]), trace[|trace| - 1])
  }

  lemma {:induction false} ReplayAppend(p: Processor, a: seq<Event>, b: seq<Event>)
    ensures Replay(p, a + b) == Replay(Replay(p, a), b)
    decreases |b|
  {
    if |b| == 0 {
      assert a + b == a;
    } else {
      var b' := b[..|b| - 1];
      assert (a + b)[..|a + b| - 1] == a + b';
      ReplayAppend(p, a, b');
    }
  }

  /** The numbers of `issues`. */
  function Numbers(issues: seq<Issue>): set<int>
  {
    set i | 0 <= i < |issues| :: issues[i].number
  }

  /** `issues[i]` is the last issue in `issues` with its number. */
  predicate LastWithNumber(issues: seq<Issue>, i: int)
  {
    && 0 <= i < |issues|
    && forall j :: i < j < |issues| ==> issues[j].number != issues[i].number
  }

  /** Every number in `issues` has a last issue carrying it. */
  lemma {:induction false} LastWithNumberExists(issues: seq<Issue>, n: int)
    requires n in Numbers(issues)
    ensures exists i :: LastWithNumber(issues, i) && issues[i].number == n
    decreases |issues|
  {
    var k := |issues| - 1;
    if issues[k].number == n {
      assert LastWithNumber(issues, k);
    } else {
      var front := issues[..k];
      assert n in Numbers(front) by {
        var i :| 0 <= i < |issues| && issues[i].number == n;
        assert front[i] == issues[i];
      }
      LastWithNumberExists(front, n);
      var i :| LastWithNumber(front, i) && front[i].number == n;
      assert LastWithNumber(issues, i);
    }
  }

  lemma NumbersSnoc(issues: seq<Issue>)
    requires |issues| > 0
    ensures Numbers(issues) == Numbers(issues[..|issues| - 1]) + {issues[|issues| - 1].number}
  {
  }

  /** One more `process_issue` call, for `x`, keeps "each number holds its
      last issue's entry" true of the longer run of issues. */
  lemma LastWinsStep(q: Processor, repo: string, front: seq<Issue>, x: Issue)
    requires forall i :: LastWithNumber(front, i) ==>
      front[i].number in q.issueLog && q.issueLog[front[i].number] == Entry(front[i].comments, 0)
    ensures forall i :: LastWithNumber(front + [x], i) ==>
      && (front + [x])[i].number in q.ProcessIssue(repo, x).issueLog
      && q.ProcessIssue(repo, x).issueLog[(front + [x])[i].number] == Entry((front + [x])[i].comments, 0)
  {
    var issues := front + [x];
    assert forall j :: 0 <= j < |front| ==> issues[j] == front[j];
    forall i | LastWithNumber(issues, i)
      ensures issues[i].number in q.ProcessIssue(repo, x).issueLog
      ensures q.ProcessIssue(repo, x).issueLog[issues[i].number] == Entry(issues[i].comments, 0)
    {
      if i < |front| {
        assert issues[|front|] == x;
        assert LastWithNumber(front, i);
      } else {
        assert issues[i] == x;
      }
    }
  }

  /** Feeding `issues` to `process_issue` in order: the log gains exactly their
      numbers; each of those numbers holds the comment count of the last issue
      with that number and zero participants; every other entry is unchanged. */
  lemma {:induction false} ReplayIssueCalls(p: Processor, repo: string, issues: seq<Issue>)
    ensures Replay(p, IssueCalls(repo, issues)).issueLog.Keys == p.issueLog.Keys + Numbers(issues)
    ensures forall i :: LastWithNumber(issues, i) ==>
      Replay(p, IssueCalls(repo, issues)).issueLog[issues[i].number] == Entry(issues[i].comments, 0)
    ensures forall n :: n in p.issueLog && n !in Numbers(issues) ==>
      Replay(p, IssueCalls(repo, issues)).issueLog[n] == p.issueLog[n]
    decreases |issues|
  {
    if |issues| != 0 {
      var k := |issues| - 1;
      var front := issues[..k];
      var calls := IssueCalls(repo, issues);
      assert calls[..|calls| - 1] == IssueCalls(repo, front);
      ReplayIssueCalls(p, repo, front);
      NumbersSnoc(issues);
      var q := Replay(p, IssueCalls(repo, front));
      var r := Replay(p, calls);
      assert r == q.ProcessIssue(repo, issues[k]);
      assert issues == front + [issues[k]];
      LastWinsStep(q, repo, front, issues[k]);
    }
  }

  /** The log a fresh processor holds after a dispatch trace of `issues`: keyed
      by exactly the numbers processed, each entry from the last issue with
      that number, with zero participants throughout. */
  lemma DispatchedLog(repo: string, maxPages: int, issues: seq<Issue>)
    ensures Replay(New(), DispatchTrace(repo, maxPages, issues)).DidProcess().Keys == Numbers(issues)
    ensures forall i :: LastWithNumber(issues, i) ==>
      Replay(New(), DispatchTrace(repo, maxPages, issues)).DidProcess()[issues[i].number]
        == Entry(issues[i].comments, 0)
    ensures forall n :: n in Replay(New(), DispatchTrace(repo, maxPages, issues)).DidProcess() ==>
      Replay(New(), DispatchTrace(repo, maxPages, issues)).DidProcess()[n].numParticipants == 0
  {
    var calls := IssueCalls(repo, issues);
    var first := [WillProcessCall(maxPages)];
    ReplayAppend(New(), first + calls, [DidProcessCall]);
    ReplayAppend(New(), first, calls);
    assert Replay(New(), first) == New() by {
      assert first[..0] == [];
    }
    ReplayIssueCalls(New(), repo, issues);
    var log := Replay(New(), DispatchTrace(repo, maxPages, issues)).DidProcess();
    forall n | n in log ensures log[n].numParticipants == 0 {
      LastWithNumberExists(issues, n);
    }
  }
}

=== FILE: importer.dfy ===
/** The live batch importer: walks the paginated issue listing of one
    repository and dispatches every issue to a processor, under a page budget.

    The remote listing is abstracted as the sequence of its pages. The first
    page always exists (it may be empty), and a page carries a "next" link
    exactly when more pages follow it. */
module LiveBatchImporter {
  import opened Issues

  datatype Option<T> = None | Some(value: T)

  /** The pages of a repository's issue listing, in the order the links visit them. */
  type Listing = s: seq<seq<Issue>> | |s| > 0 witness [[]]

  /** One HTTP response: the page's issues and its "next" link, here the index
      of the page that link leads to. */
  datatype Response = Response(data: seq<Issue>, next: Option<nat>)

  /** The response for page `k` of the listing. */
  function Fetch(src: Listing, k: nat): Response
    requires k < |src|
  {
    Response(src[k], if k + 1 < |src| then Some(k + 1) else None)
  }

  function Budget(maxPages: int): nat
  {
    if maxPages > 0 then maxPages else 0
  }

  /** How many pages of a `pageCount`-page listing reach the processor. */
  function PagesProcessed(pageCount: nat, maxPages: int): nat
  {
    if Budget(maxPages) < pageCount then Budget(maxPages) else pageCount
  }

  /** How many "next" links are followed for a `pageCount`-page listing. */
  function NextFetches(pageCount: nat, maxPages: int): nat
    requires pageCount > 0
  {
    if Budget(maxPages) < pageCount - 1 then Budget(maxPages) else pageCount - 1
  }

  /** The `for issue in issues` loop: one `process_issue` call per issue of
      the page, appended to the calls made so far. */
  method DispatchPage(trace: seq<Event>, repo: string, issues: seq<Issue>) returns (trace': seq<Event>)
    ensures trace' == trace + IssueCalls(repo, issues)
  {
    trace' := trace;
    for j := 0 to |issues|
      invariant trace' == trace + IssueCalls(repo, issues[..j])
    {
      assert issues[..j + 1][..j] == issues[..j];
      trace' := trace' + [ProcessIssueCall(repo, issues[j])];
    }
    assert issues[..|issues|] == issues;
  }

  /** Dispatching page `cur` after the pages before it gives the calls for
      the first `cur + 1` pages. */
  lemma PageDispatched(src: Listing, repo: string, maxPages: int, cur: nat)
    requires cur < |src|
    ensures [WillProcessCall(maxPages)] + IssueCalls(repo, Concat(src[..cur])) + IssueCalls(repo, src[cur])
         == [WillProcessCall(maxPages)] + IssueCalls(repo, Concat(src[..cur + 1]))
  {
    ConcatSnoc(src, cur);
    IssueCallsAppend(repo, Concat(src[..cur]), src[cur]);
  }

  /** `RepoLiveBatchImporter#run`: returns the calls made on the processor, in
      order, and the number of pages fetched. */
  method Run(src: Listing, repo: string, maxPages: int) returns (trace: seq<Event>, fetches: nat)
    ensures trace == DispatchTrace(repo, maxPages, Concat(src[..PagesProcessed(|src|, maxPages)]))
    ensures fetches == 1 + NextFetches(|src|, maxPages)
    ensures Lifecycle(trace) && trace[0] == WillProcessCall(maxPages)
    ensures Processed(trace) == Concat(src[..PagesProcessed(|src|, maxPages)])
  {
    var budget := maxPages;

    var response := Fetch(src, 0);
    fetches := 1;
    var issues := response.data;
    var nextPage := response.next;

    trace := [WillProcessCall(budget)];
    ghost var cur: nat := 0;   // index of the page held in `issues`
    ghost var done: nat := 0;  // pages whose issues have been dispatched
    while budget > 0
      invariant cur < |src| && done <= |src|
      invariant issues == src[cur]
      invariant nextPage == (if cur + 1 < |src| then Some(cur + 1) else None)
      invariant fetches == cur + 1
      invariant trace == [WillProcessCall(maxPages)] + IssueCalls(repo, Concat(src[..done]))
      invariant budget > 0 ==> done == cur && budget == maxPages - cur
      invariant budget <= 0 ==>
        done == PagesProcessed(|src|, maxPages) && cur == NextFetches(|src|, maxPages)
      decreases budget
    {
      trace := DispatchPage(trace, repo, issues);
      PageDispatched(src, repo, maxPages, cur);
      done := cur + 1;

      if nextPage.Some? {
        var nextResponse := Fetch(src, nextPage.value);
        fetches := fetches + 1;
        nextPage := nextResponse.next;
        issues := nextResponse.data;
        budget := budget - 1;
        cur := cur + 1;
      } else {
        assert cur == |src| - 1 && done == |src|;
        assert PagesProcessed(|src|, maxPages) == |src| && NextFetches(|src|, maxPages) == cur;
        budget := 0;
      }
    }
    trace := trace + [DidProcessCall];
    DispatchTraceLifecycle(repo, maxPages, Concat(src[..done]));
  }

  /** Once the last page is reached the loop stops, whatever budget remains:
      with a budget of at least P pages, every issue of the listing is
      processed and exactly P pages are fetched. */
  lemma {:induction false} RunStopsAtLastPage(src: Listing, repo: string, maxPages: int, trace: seq<Event>, fetches: nat)
    requires trace == DispatchTrace(repo, maxPages, Concat(src[..PagesProcessed(|src|, maxPages)]))
    requires fetches == 1 + NextFetches(|src|, maxPages)
    requires maxPages >= |src|
    ensures trace == DispatchTrace(repo, maxPages, Concat(src))
    ensures fetches == |src|
  {
    assert PagesProcessed(|src|, maxPages) == |src|;
    assert src[..|src|] == src;
  }

  /** With more pages than budget, only the first `maxPages` pages are
      processed but `maxPages + 1` are fetched: the page fetched last never
      reaches the processor. */
  lemma {:induction false} RunFetchesUnprocessedPage(src: Listing, repo: string, maxPages: int, trace: seq<Event>, fetches: nat)
    requires trace == DispatchTrace(repo, maxPages, Concat(src[..PagesProcessed(|src|, maxPages)]))
    requires fetches == 1 + NextFetches(|src|, maxPages)
    requires 0 <= maxPages < |src|
    ensures Processed(trace) == Concat(src[..maxPages])
    ensures fetches == maxPages + 1
  {
    DispatchTraceLifecycle(repo, maxPages, Concat(src[..PagesProcessed(|src|, maxPages)]));
  }

  /** No budget, or a listing that is one empty page: the first page is still
      fetched, and the processor gets `will_process` then `did_process` and
      nothing in between. */
  lemma RunWithoutIssues(src: Listing, repo: string, maxPages: int, trace: seq<Event>, fetches: nat)
    requires trace == DispatchTrace(repo, maxPages, Concat(src[..PagesProcessed(|src|, maxPages)]))
    requires fetches == 1 + NextFetches(|src|, maxPages)
    requires maxPages <= 0 || src == [[]]
    ensures trace == [WillProcessCall(maxPages), DidProcessCall]
    ensures fetches == 1
  {
  }
}

=== FILE: issues.dfy ===
/** The values an importer hands to a processor: issues, and the lifecycle
    calls (`will_process`, `process_issue`, `did_process`) a processor receives. */
module Issues {

  /** An issue as the listing returns it: the fields the hotspot processor reads. */
  datatype Issue = Issue(number: int, title: string, comments: nat)

  /** One call an importer makes on its processor. */
  datatype Event =
    | WillProcessCall(maxPages: int)
    | ProcessIssueCall(repo: string, issue: Issue)
    | DidProcessCall

  /** The `process_issue` calls for `issues`, one per issue, in the same order. */
  function IssueCalls(repo: string, issues: seq<Issue>): (r: seq<Event>)
    ensures |r| == |issues|
    ensures forall i :: 0 <= i < |issues| ==> r[i] == ProcessIssueCall(repo, issues[i])
  {
    if |issues| == 0 then []
    else IssueCalls(repo, issues[..|issues| - 1]) + [ProcessIssueCall(repo, issues[|issues| - 1])]
  }

  /** Dispatching two runs of issues one after the other makes the calls of both, in order. */
  lemma IssueCallsAppend(repo: string, a: seq<Issue>, b: seq<Issue>)
    ensures IssueCalls(repo, a + b) == IssueCalls(repo, a) + IssueCalls(repo, b)
  {
  }

  /** All issues of `pages`, page after page, each page in its own order. */
  function Concat(pages: seq<seq<Issue>>): seq<Issue>
  {
    if |pages| == 0 then [] else Concat(pages[..|pages| - 1]) + pages[|pages| - 1]
  }

  /** Taking one more page appends exactly that page's issues. */
  lemma ConcatSnoc(pages: seq<seq<Issue>>, k: nat)
    requires k < |pages|
    ensures Concat(pages[..k + 1]) == Concat(pages[..k]) + pages[k]
  {
    assert pages[..k + 1][..k] == pages[..k];
  }

  /** The calls a processor receives when `issues` are dispatched under a page
      budget of `maxPages`. */
  function DispatchTrace(repo: string, maxPages: int, issues: seq<Issue>): seq<Event>
  {
    [WillProcessCall(maxPages)] + IssueCalls(repo, issues) + [DidProcessCall]
  }

  /** The processor contract: `will_process` exactly once and first, then only
      `process_issue` calls, then `did_process` exactly once and last. */
  predicate Lifecycle(trace: seq<Event>)
  {
    && |trace| >= 2
    && (forall i :: 0 <= i < |trace| ==> (trace[i].WillProcessCall? <==> i == 0))
    && (forall i :: 0 <= i < |trace| ==> (trace[i].DidProcessCall? <==> i == |trace| - 1))
  }

  /** The issues a trace hands to `process_issue`, in call order. */
  function Processed(trace: seq<Event>): seq<Issue>
  {
    if |trace| == 0 then []
    else
      var last := trace[|trace| - 1];
      Processed(trace[..|trace| - 1]) + (if last.ProcessIssueCall? then [last.issue] else [])
  }

  lemma {:induction false} ProcessedAppend(a: seq<Event>, b: seq<Event>)
    ensures Processed(a + b) == Processed(a) + Processed(b)
    decreases |b|
  {
    if |b| == 0 {
      assert a + b == a;
    } else {
      var b' := b[..|b| - 1];
      assert (a + b)[..|a + b| - 1] == a + b';
      ProcessedAppend(a, b');
    }
  }

  lemma {:induction false} ProcessedIssueCalls(repo: string, issues: seq<Issue>)
    ensures Processed(IssueCalls(repo, issues)) == issues
    decreases |issues|
  {
    if |issues| != 0 {
      var front := issues[..|issues| - 1];
      var calls := IssueCalls(repo, issues);
      assert calls[..|calls| - 1] == IssueCalls(repo, front);
      ProcessedIssueCalls(repo, front);
      assert issues == front + [issues[|issues| - 1]];
    }
  }

  /** A dispatch trace keeps the processor contract, passes the budget to
      `will_process`, and hands over exactly `issues`, nothing skipped or
      reordered. */
  lemma DispatchTraceLifecycle(repo: string, maxPages: int, issues: seq<Issue>)
    ensures Lifecycle(DispatchTrace(repo, maxPages, issues))
    ensures DispatchTrace(repo, maxPages, issues)[0] == WillProcessCall(maxPages)
    ensures Processed(DispatchTrace(repo, maxPages, issues)) == issues
    ensures |DispatchTrace(repo, maxPages, issues)| == |issues| + 2
  {
    var calls := IssueCalls(repo, issues);
    var t := DispatchTrace(repo, maxPages, issues);
    assert forall i :: 1 <= i < |t| - 1 ==> t[i] == calls[i - 1];
    DispatchTraceProcessed(repo, maxPages, issues);
  }

  lemma DispatchTraceProcessed(repo: string, maxPages: int, issues: seq<Issue>)
    ensures Processed(DispatchTrace(repo, maxPages, issues)) == issues
  {
    var calls := IssueCalls(repo, issues);
    ProcessedAppend([WillProcessCall(maxPages)] + calls, [DidProcessCall]);
    ProcessedAppend([WillProcessCall(maxPages)], calls);
    ProcessedIssueCalls(repo, issues);
    assert Processed([WillProcessCall(maxPages)]) == [] by {
      assert [WillProcessCall(maxPages)][..0] == [];
    }
    assert Processed([DidProcessCall]) == [] by {
      assert [DidProcessCall][..0] == [];
    }
  }
}
